=== FILE: README.md ===
# Short-video watermark remover: resolution pipeline and relay, in Dafny

The page takes a short-video link, checks it against seven platform domains and
asks a third-party resolution API for the media behind it. Browsers block the
direct call across origins, so `callAPI` tries a chain of transports. First a
direct `fetch`. Then three public CORS relays, in list order. Then a JSONP
script. If all of these fail, it throws. Every upstream JSON body goes through
`parseApiResponse`. That function tells apart two success shapes and a failure.
A small Node relay server (`proxy-server.js`) offers the same upstream call from
the server side.

This project models those pieces and proves their properties:

- `js_values.dfy`: JavaScript values after JSON parsing, truthiness, `||`, and property reads.
- `link_validator.dfy`: `isValidUrl`, as a literal substring search over seven patterns.
- `response_normalizer.dfy`: `parseApiResponse`, including the TypeError it throws on a `null` body.
- `upstream_url.dfy`: the upstream URL shape `…/xxmQsyByAk?ak=<key>&link=<link>`, which the page and the relay share, and its split back into key and link.
- `jsonp.dfy`: `callAPIWithJSONP`, as a class holding the callback registration, the script element, the promise and the timer.
- `resolver.dfy`: `callAPI`, as a fold with short-circuit (`Resolve`). A loop method (`FetchInOrder`) tries the transports in order, and `CallApi` calls it and is proved equal to the fold.
- `remover.dfy`: the `isProcessing` and `verifyCompleted` guards of `WatermarkRemover`.
- `relay.dfy`: the relay's request handler. A pure decision (`Respond`) comes first. A method (`Handle`) then carries it out on a mutable response object.

Network, timers and library encoders are parameters. A `Browser` value holds
the two URL encoders, the outcome of fetching each URL, what a script with each
source does, and the clock digits that name the JSONP callback. A relay `Codec`
holds `encodeURIComponent` and `JSON.stringify` for strings. The upstream
request is a function from target URL to `Status(code, body) | TransportError(message)`.

Behaviour of the code a reader may not expect, which the model keeps:

- A "10000" body without `content.url` is a success with `downloadUrl` `""`.
- A 200 body whose `data` has neither `url` nor `videoUrl` is a success with `downloadUrl` undefined. It is not a failure.
- `callAPI` does not validate the link itself. Only `handleRemoveClick` does.
- JSONP data is returned as it came, without `parseApiResponse`.
- A non-ok status, like a blocked call, only moves the chain on.
- An `ok` response whose body is not JSON moves the chain on. So does a JSON `null` body, because `data.code` throws and the error is caught.
- `showResult` can itself throw: on null or undefined data (a JSONP payload `{success: true}` without `data`), and on a truthy thumbnail that is not a string (`.trim` is not a function). The `catch` of `processVideo` then shows the network message instead of the result.

## Model

| member | source | states |
|---|---|---|
| `LinkValidator.Test` | script.js:70 | `pattern.test(url)` for a literal pattern is true exactly when the pattern occurs in the link |
| `LinkValidator.SomeMatches` | script.js:70 | `patterns.some(...)` is true exactly when at least one pattern of the list occurs in the link |
| `LinkValidator.IsValidUrl` | script.js:57-71 | false for the empty link; otherwise true iff one of the seven domain strings occurs in the link, case-sensitively, dots literal |
| `LinkValidator.EmptyGuardRedundant` | script.js:58 | the `!url` guard changes nothing: the pattern test alone gives the same answer on every link |
| `LinkValidator.SubdomainImpliesDomain` | script.js:61-62 | every link containing `v.douyin.com` also contains `douyin.com` |
| `LinkValidator.SubdomainPatternRedundant` | script.js:60-70 | removing the `v\.douyin\.com` pattern leaves `isValidUrl` unchanged on every link |
| `ResponseNormalizer.ParseApiResponse` | script.js:295-329 | throws iff the body is null/undefined; otherwise success iff (code `=== "10000"` and `content` truthy) or (code `=== 200` and `data` truthy); a failure's message is always truthy |
| `ResponseNormalizer.SuccessDefaults` | script.js:299-322 | in a success, title and author are truthy (upstream value or placeholder); thumbnail, duration and size are truthy or `""`; each keeps the upstream value when truthy |
| `ResponseNormalizer.ContentShapeDownloadUrl` | script.js:297-305 | a "10000" body with truthy `content` is a success (built by `FromContent`) whose `downloadUrl` is `content.url` when truthy, else `""` |
| `ResponseNormalizer.DataShapeDownloadUrl` | script.js:310-318 | a 200 body with truthy `data` is a success (built by `FromData`) whose `downloadUrl` is `data.url` when truthy, else `data.videoUrl`, with no further default |
| `ResponseNormalizer.DataShapeWithoutUrl` | script.js:310-322 | every 200 body with truthy `data` in which both `url` and `videoUrl` are undefined is a success with `downloadUrl` undefined |
| `ResponseNormalizer.FailureMessage` | script.js:323-328 | a failure carries `msg` when truthy, else `message` when truthy, else `'解析失败'` |
| `ResponseNormalizer.StrictCodes` | script.js:297-310 | the string `"200"` and the number `10000` are not success codes: such bodies are failures |
| `UpstreamUrl.SplitQueryUrlInverts` | proxy-server.js:30 | the upstream URL is the fixed base, `?ak=`, the encoded key, `&link=`, the encoded link; both values read back unchanged when the key encoding has no `&` |
| `UpstreamUrl.QueryUrl` | script.js:237-243 | the URL is the endpoint followed at once by `?` and the query, so it always carries a query; its length is the sum of its parts |
| `Jsonp.JsonpRequest.Cleanup` | script.js:336-356 | removes the script element and deletes the global, once per request: afterwards neither is present and the release count rose by one, nothing else changes |
| `Jsonp.JsonpSrc` | script.js:342 | the script source is the URL, then `&` if the URL contains `?` and `?` otherwise, then `callback=<name>` |
| `Jsonp.JsonpRequest.constructor` | script.js:331-358 | registers the callback, appends the script, arms the timer; pending, nothing released yet |
| `Jsonp.JsonpRequest.OnCallback` | script.js:336-340 | while registered: releases the script and the global once, and resolves with the data; afterwards it changes nothing |
| `Jsonp.JsonpRequest.OnScriptError` | script.js:343-347 | while attached: releases once and rejects with "JSONP request failed"; after the timeout, `removeChild` throws and the settled state stays |
| `Jsonp.JsonpRequest.OnTimeout` | script.js:352-358 | rejects with "JSONP request timeout" and releases only if the global is still registered; after it, the request is settled and released exactly once |
| `Jsonp.Settle` | script.js:331-360 | a request settles as the script's fate says (resolved with the data, rejected on error, rejected on timeout), and no handler throws |
| `Jsonp.LateErrorThrows` | script.js:343-358 | a load error after the timeout leaves the timeout rejection in place and throws from the handler once |
| `Resolver.TransportUrls` | script.js:231-267 | the fetch order is the direct target URL (`TargetUrl`, the endpoint with the `URLSearchParams` query), then each relay prefix in list order followed by the encoded target URL |
| `Resolver.Answer` | script.js:246-281 | a transport answers exactly when it returns an `ok` response whose JSON body is not null; a blocked call, a non-ok status, an unparsable body or a null body moves the chain on |
| `Resolver.AnswerIsParse` | script.js:246-281 | when a transport answers, its answer is exactly `parseApiResponse` of its JSON body |
| `Resolver.FirstAnswer` | script.js:246-282 | the fetch chain yields a parsed answer or falls through to the fallback, nothing else |
| `Resolver.Resolve` | script.js:227-293 | `callAPI` yields a parsed answer, the data the JSONP script called back with (only when it did), or the fixed all-failed error; the JSONP stage is `JsonpStep` |
| `Resolver.FirstAnswerIsFirst` | script.js:246-282 | the chain's result is the parse result of the first transport that answers; it falls through to JSONP exactly when none answers |
| `Resolver.LaterTransportsIrrelevant` | script.js:256-276 | once a transport answers, later transports and JSONP cannot change the outcome |
| `Resolver.SemanticFailureStopsChain` | script.js:246-276 | a blocked direct call and a first relay whose ok body normalises to a failure give that failure as the outcome |
| `Resolver.JsonpIsLastResort` | script.js:284-292 | when no fetch answers, the JSONP data is returned without normalisation (`JsonpStep`); otherwise `callAPI` throws its fixed error |
| `Resolver.ScriptSrcAppendsCallback` | script.js:286 | the JSONP source is the target URL plus `&callback=<name>`, where the name (`Jsonp.CallbackName`) is `jsonp_callback_` followed by the clock reading |
| `Resolver.FetchInOrder` | script.js:245-282 | the direct call, then the relays in list order, stopping at the first answer: the tried URLs agree with the planned list position by position, all but the last moved the chain on, the last one's answer is returned, and all were tried when none answered |
| `Resolver.CallApi` | script.js:227-293 | returns `Resolve(link)`; the URLs it fetched are a prefix of the planned order, every one but an answering last one moved the chain on, and all were tried when none answered |
| `Remover.Present` | script.js:208-220 | once `callAPI` settles, a result is shown exactly when the outcome is a success whose data `showResult` can render (a parsed success is passed as the object `MediaObject` builds; `Renders`: not nullish, thumbnail falsy or a string; `Show` turns its throw into the network message); a success that does not render shows the network message; a JSONP payload whose `success` is falsy shows its `message \|\| '解析失败，请重试'`; otherwise an error with a non-empty message: the failure's `message \|\| '解析失败，请重试'`, or the network message when `callAPI` throws, the JSONP payload is null, or `showResult` throws |
| `Remover.ParsedSuccessShownIffCoverIsText` | script.js:377-392 | a normalised success is shown exactly when the upstream `cover` is falsy or a string; a truthy non-string cover ends in the network message |
| `Remover.ParsedFailureShowsOwnMessage` | script.js:214-216 | a normalised failure is shown with its own message, never the retry fallback |
| `Remover.WatermarkRemover.constructor` | script.js:2-6 | both flags start false |
| `Remover.WatermarkRemover.ResetSlider` | script.js:168-175 | clears `verifyCompleted`, nothing else |
| `Remover.WatermarkRemover.CloseVerifyModal` | script.js:91-95 | hides the modal and clears `verifyCompleted` |
| `Remover.WatermarkRemover.HandleRemoveClick` | script.js:73-89 | ignored while processing; an invalid link shows the error; a valid one opens the modal with the slider reset |
| `Remover.WatermarkRemover.CompleteVerify` | script.js:177-194 | acts iff `verifyCompleted` was clear, then sets it and schedules one timer; it acts at most once until a reset or close |
| `Remover.WatermarkRemover.StartProcessing` | script.js:196-202 | a no-op while `isProcessing`; otherwise sets it; at most one run is in flight |
| `Remover.WatermarkRemover.FinishProcessing` | script.js:204-224 | shows the outcome and clears `isProcessing` on every outcome, thrown ones included |
| `Remover.WatermarkRemover.ProcessVideo` | script.js:196-225 | when it passes the guard, it shows `Present(Resolve(link))` and ends with the flag clear; otherwise nothing changes |
| `Remover.WatermarkRemover.OnVerifyTimer` | script.js:190-193 | the timer closes the modal (clearing the flag) and starts processing |
| `Remover.DoubleCompletion` | script.js:177-199 | completing twice in one showing schedules one run, and a second run cannot start while one is in flight |
| `Relay.Route` | proxy-server.js:12-56 | a request is forwarded exactly when it is a GET under `/api/` with non-empty `ak` and `link` (`Supplied`, the negation of `!ak`), to the upstream URL built from them; every other request is answered at once with 200 (exactly for `OPTIONS`), 400 or 404 |
| `Relay.Relayed` | proxy-server.js:33-51 | the reply to a forward is labelled JSON, carries the upstream status and body, or 500 and the error envelope (`ErrorEnvelope`) on a transport error |
| `Relay.Respond` | proxy-server.js:6-57 | every response has exactly the three CORS headers plus `Content-Type`, the latter on every response but the pre-flight |
| `Relay.PreflightAnyPath` | proxy-server.js:12-16 | `OPTIONS` on any path gets 200, an empty body and only the CORS headers |
| `Relay.MissingParameterIs400` | proxy-server.js:18-27 | a GET under `/api/` with a missing or empty `ak` or `link` gets 400 with the missing-parameter envelope, and no upstream request |
| `Relay.UnmatchedIs404` | proxy-server.js:53-56 | anything neither `OPTIONS` nor a GET under `/api/` gets 404 with `{"error":"Not found"}` |
| `Relay.NearMissesAreNotRoutes` | proxy-server.js:18 | `POST /api/` and `GET /api` do not match the route |
| `Relay.ForwardTarget` | proxy-server.js:20-30 | a complete request is forwarded to the base URL with the encoded `ak` then `link` (each converted by `Text`, as `String(param)` does), which read back unchanged |
| `Relay.ForwardedReply` | proxy-server.js:33-51 | the upstream status and body pass through, labelled JSON; a transport error gives 500 with the envelope carrying its message |
| `Relay.CorsOnEveryResponse` | proxy-server.js:8-10 | every response carries the three CORS headers with their values; replies decided locally are 200, 400 or 404 |
| `Relay.Handle` | proxy-server.js:6-57 | the `setHeader`/`writeHead`/`end` sequence on `res` leaves exactly the response `Respond` describes |

## Left out

- DOM rendering and UX are not modelled: `showResult`, `showDefaultThumbnail`, the download modals, `showDownloadTip`, `showError`/`hideError`, `setLoadingState`, and event binding. `View` records only which of `showResult`/`showError` was called, and with what.
- `handleUrlInput` and `handleUrlPaste` only enable or disable the button with `isValidUrl` and hide the error. They are UI.
- The Enter-key handler calls `handleRemoveClick` when the button is enabled; `HandleRemoveClick` models that call. The button's enabled state is not modelled.
- The slider drag geometry in `initSliderVerify` is floating-point math over DOM widths. Only its call to `completeVerify` is kept.
- Real networking is not modelled: `fetch`, `https.get`, the streaming of `apiRes.pipe`, `server.listen` and `PORT`. Each is an outcome value, and a piped body is one string.
- `URLSearchParams`, `encodeURIComponent` and `JSON.stringify` are uninterpreted function parameters. `SplitQueryUrlInverts` and `ForwardTarget` assume only that the encoded key has no `&`; both encoders escape `&`, which the model does not define.
- JSON parsing and `url.parse` are not modelled. Their results are inputs: a `JsValue` and a query map.
- `JsValue` has no NaN and no infinities, and JSON cannot produce them. Property reads on strings, numbers, booleans and arrays yield undefined for every name `Get` is applied to. The one method read off a string, `thumbnail.trim`, is handled by `Renders` and not by `Get`.
- `Date.now()` and the 15-second and 800 ms delays are inputs and events. Two JSONP calls in the same millisecond would share a callback name. The model does not cover this: each request owns its own registration.
- The page's other globals and other head children are not modelled. A late callback after the timeout fails inside the foreign script, and leaves this request's state unchanged.
- Concurrent relay requests are independent. `Handle` models one request.
- `localStorage` save/restore and console logging are not modelled.
- `Remover.WatermarkRemover.HandleRemoveClick`: the input box's trimming is taken as done. `processVideo` reads the input again; `ProcessVideo` takes that link as a parameter.

=== FILE: js_values.dfy ===
/** JavaScript values as the page sees them after JSON parsing and property reads. */
module JsValues {

  datatype Option<+T> = None | Some(value: T)

  /** A value that `response.json()` or a property read can produce. Numbers are
      reals: JSON has no NaN or infinities, and `200 === 200.0` in JavaScript. */
  datatype JsValue =
    | Undefined
    | Null
    | Bool(b: bool)
    | Num(n: real)
    | Str(s: string)
    | Arr(elems: seq<JsValue>)
    | Obj(props: map<string, JsValue>)
  {
    /** Reading a property of this value throws a TypeError. */
    predicate IsNullish() {
      Undefined? || Null?
    }
  }

  /** JavaScript truthiness: `undefined`, `null`, `false`, `0` and `""` are falsy. */
  predicate Truthy(v: JsValue) {
    match v
    case Undefined => false
    case Null => false
    case Bool(b) => b
    case Num(n) => n != 0.0
    case Str(s) => s != ""
    case Arr(_) => true
    case Obj(_) => true
  }

  /** The expression `a || b`. */
  function Or(a: JsValue, b: JsValue): JsValue {
    if Truthy(a) then a else b
  }

  /** The property read `v.key` on a value that is not null or undefined. Only
      objects carry the property names this system reads; for strings, numbers,
      booleans and arrays the read yields `undefined`. */
  function Get(v: JsValue, key: string): JsValue
    requires !v.IsNullish()
  {
    if v.Obj? && key in v.props then v.props[key] else Undefined
  }
}

=== FILE: jsonp.dfy ===
/** `callAPIWithJSONP`: one JSONP request as a small state machine. Creating it
    registers a global callback, injects a script element and starts a 15-second
    timer; three events can then settle the promise (the callback, the script's
    error event, the timer), and each of them releases the global and the script
    element when it settles. */
module Jsonp {
  import opened JsValues

  const CallbackPrefix := "jsonp_callback_"
  const FailedReason := "JSONP request failed"
  const TimeoutReason := "JSONP request timeout"

  /** The global name `'jsonp_callback_' + Date.now()`; the clock reading is
      supplied already converted to its decimal digits. */
  function CallbackName(stamp: string): string {
    CallbackPrefix + stamp
  }

  /** The script's `src`: the URL, then '&' if it already has a query and '?'
      otherwise, then `callback=<name>`. */
  function JsonpSrc(url: string, name: string): (src: string)
    ensures |src| == |url| + 1 + |"callback="| + |name|
    ensures src[..|url|] == url
    ensures src[|url|] == (if '?' in url then '&' else '?')
    ensures src[|url| + 1..] == "callback=" + name
  {
    var src := url + (if '?' in url then "&" else "?") + "callback=" + name;
    assert src[|url| + 1..] == "callback=" + name;
    src
  }

  /** What the browser does with the injected script: it runs and calls the
      global callback with its data, it fails to load (the error event), or it
      does neither before the timer fires. */
  datatype ScriptFate = Calls(data: JsValue) | FailsToLoad | Hangs

  /** The state of the promise `callAPIWithJSONP` returns. */
  datatype Settlement = Pending | Resolved(value: JsValue) | Rejected(reason: string)

  class JsonpRequest {
    const name: string
    const src: string
    /** `window[name]` holds the callback. */
    var registered: bool
    /** The script element is a child of `document.head`. */
    var attached: bool
    var state: Settlement
    /** The script has run or has failed to load; the browser does one of these once. */
    var scriptFinished: bool
    var timerFired: bool
    /** Exceptions thrown out of a handler of this request. */
    var uncaught: nat
    /** How many times the global and the script element have been released. */
    ghost var cleanups: nat

    /** The global and the script element live exactly as long as the promise is
        pending; they are released once when it settles; the timer never leaves
        it pending. */
    ghost predicate Valid()
      reads this
    {
      && registered == attached
      && (registered <==> state.Pending?)
      && cleanups == (if state.Pending? then 0 else 1)
      && (timerFired ==> !state.Pending?)
    }

    /** The synchronous part of `callAPIWithJSONP(url)`: register the callback,
        set the script's source, append it to the head, start the timer. */
    constructor (url: string, name: string)
      ensures Valid()
      ensures this.name == name && src == JsonpSrc(url, name)
      ensures state == Pending && registered && attached
      ensures !scriptFinished && !timerFired && uncaught == 0
    {
      this.name := name;
      src := JsonpSrc(url, name);
      registered := true;
      attached := true;
      state := Pending;
      scriptFinished := false;
      timerFired := false;
      uncaught := 0;
      cleanups := 0;
    }

    /** Remove the script from the head and delete the global. */
    method Cleanup()
      requires Valid() && state.Pending?
      modifies this
      ensures !registered && !attached && cleanups == old(cleanups) + 1
      ensures state == old(state) && scriptFinished == old(scriptFinished)
      ensures timerFired == old(timerFired) && uncaught == old(uncaught)
    {
      attached := false;
      registered := false;
      cleanups := cleanups + 1;
    }

    /** The script calls `window[name](data)`. Once the global is gone (after the
        timer) the call fails inside the script, outside this request. */
    method OnCallback(data: JsValue)
      requires Valid() && !scriptFinished
      modifies this
      ensures Valid() && scriptFinished
      ensures state == if old(state).Pending? then Resolved(data) else old(state)
      ensures timerFired == old(timerFired) && uncaught == old(uncaught)
    {
      scriptFinished := true;
      if registered {
        Cleanup();
        state := Resolved(data);
      }
    }

    /** The script's error event. The handler removes the script without checking
        that it is still attached, so an error that arrives after the timer has
        already cleaned up throws from `removeChild`, and nothing else runs. */
    method OnScriptError()
      requires Valid() && !scriptFinished
      modifies this
      ensures Valid() && scriptFinished
      ensures state == if old(state).Pending? then Rejected(FailedReason) else old(state)
      ensures uncaught == if old(state).Pending? then old(uncaught) else old(uncaught) + 1
      ensures timerFired == old(timerFired)
    {
      scriptFinished := true;
      if attached {
        Cleanup();
        state := Rejected(FailedReason);
      } else {
        uncaught := uncaught + 1;
      }
    }

    /** The 15-second timer: it rejects and cleans up only while the global is
        still registered, so after a settled outcome it does nothing. */
    method OnTimeout()
      requires Valid() && !timerFired
      modifies this
      ensures Valid() && timerFired
      ensures state == if old(state).Pending? then Rejected(TimeoutReason) else old(state)
      ensures cleanups == 1
      ensures scriptFinished == old(scriptFinished) && uncaught == old(uncaught)
    {
      if registered {
        Cleanup();
        state := Rejected(TimeoutReason);
      }
      timerFired := true;
    }
  }

  /** Drives one request through what its script does and then the timer, as the
      event loop delivers them, and reports how the promise settled. */
  method Settle(url: string, name: string, fate: ScriptFate) returns (s: Settlement, uncaught: nat)
    ensures fate.Calls? ==> s == Resolved(fate.data)
    ensures fate.FailsToLoad? ==> s == Rejected(FailedReason)
    ensures fate.Hangs? ==> s == Rejected(TimeoutReason)
    ensures uncaught == 0
  {
    var req := new JsonpRequest(url, name);
    match fate {
      case Calls(data) => req.OnCallback(data);
      case FailsToLoad => req.OnScriptError();
      case Hangs =>
    }
    req.OnTimeout();
    assert req.cleanups == 1;
    s, uncaught := req.state, req.uncaught;
  }

  /** A script that fails to load only after the timer has fired reaches the
      error handler with the element already removed: the request stays rejected
      by the timeout, and the handler throws. */
  method LateErrorThrows(url: string, name: string) returns (s: Settlement, uncaught: nat)
    ensures s == Rejected(TimeoutReason)
    ensures uncaught == 1
  {
    var req := new JsonpRequest(url, name);
    req.OnTimeout();
    req.OnScriptError();
    s, uncaught := req.state, req.uncaught;
  }
}

=== FILE: link_validator.dfy ===
/** The link check `isValidUrl`: a link is accepted when it contains one of seven
    platform domains. Each pattern is a regular expression with its dots
    escaped, so testing it is a plain, case-sensitive substring search. */
module LinkValidator {

  /** The seven patterns, in the order the source lists them. */
  const Patterns: seq<string> := [
    "douyin.com",
    "v.douyin.com",
    "kuaishou.com",
    "xiaohongshu.com",
    "xhslink.com",
    "bilibili.com",
    "weibo.com"
  ]

  /** `p` occurs in `s` starting at index `i`. */
  ghost predicate OccursAt(p: string, s: string, i: int) {
    0 <= i && i + |p| <= |s| && s[i..i + |p|] == p
  }

  ghost predicate Occurs(p: string, s: string) {
    exists i :: OccursAt(p, s, i)
  }

  /** `pattern.test(s)` for a literal pattern: try each start position in turn. */
  function Test(p: string, s: string): (r: bool)
    ensures r <==> Occurs(p, s)
    decreases |s|
  {
    if |s| < |p| then
      false
    else if s[..|p|] == p then
      assert OccursAt(p, s, 0);
      true
    else
      var r := Test(p, s[1..]);
      assert r ==> Occurs(p, s) by {
        if r {
          var i :| OccursAt(p, s[1..], i);
          assert s[i + 1..i + 1 + |p|] == s[1..][i..i + |p|];
          assert OccursAt(p, s, i + 1);
        }
      }
      assert Occurs(p, s) ==> r by {
        if Occurs(p, s) {
          var i :| OccursAt(p, s, i);
          assert i != 0;
          assert s[1..][i - 1..i - 1 + |p|] == s[i..i + |p|];
          assert OccursAt(p, s[1..], i - 1);
        }
      }
      r
  }

  /** `patterns.some(pattern => pattern.test(url))`. */
  function SomeMatches(patterns: seq<string>, url: string): (r: bool)
    ensures r <==> exists k :: 0 <= k < |patterns| && Occurs(patterns[k], url)
  {
    if patterns == [] then
      false
    else
      var rest := SomeMatches(patterns[1..], url);
      assert rest <==> exists k :: 1 <= k < |patterns| && Occurs(patterns[k], url) by {
        if rest {
          var k :| 0 <= k < |patterns[1..]| && Occurs(patterns[1..][k], url);
          assert patterns[1..][k] == patterns[k + 1];
        }
        if exists k :: 1 <= k < |patterns| && Occurs(patterns[k], url) {
          var k :| 1 <= k < |patterns| && Occurs(patterns[k], url);
          assert patterns[1..][k - 1] == patterns[k];
        }
      }
      Test(patterns[0], url) || rest
  }

  /** `isValidUrl`: false for the empty link, otherwise true exactly when one of
      the seven domains occurs in the link. */
  function IsValidUrl(url: string): (r: bool)
    ensures r <==> url != "" && exists k :: 0 <= k < |Patterns| && Occurs(Patterns[k], url)
  {
    if url == "" then false else SomeMatches(Patterns, url)
  }

  /** The empty-link guard decides nothing of its own: no pattern is empty, so
      none occurs in the empty link. */
  lemma EmptyGuardRedundant(url: string)
    ensures IsValidUrl(url) == SomeMatches(Patterns, url)
  {
  }

  /** Every link that contains "v.douyin.com" contains "douyin.com" two
      characters further on. */
  lemma {:induction false} SubdomainImpliesDomain(url: string)
    ensures Occurs("v.douyin.com", url) ==> Occurs("douyin.com", url)
  {
    if Occurs("v.douyin.com", url) {
      var i :| OccursAt("v.douyin.com", url, i);
      assert url[i + 2..i + 12] == url[i..i + 12][2..];
      assert OccursAt("douyin.com", url, i + 2);
    }
  }

  /** Dropping the `v\.douyin\.com` pattern does not change which links are valid. */
  lemma {:induction false} SubdomainPatternRedundant(url: string)
    ensures IsValidUrl(url) == (url != "" && SomeMatches(Patterns[..1] + Patterns[2..], url))
  {
    var fewer := Patterns[..1] + Patterns[2..];
    SubdomainImpliesDomain(url);
    if IsValidUrl(url) {
      var k :| 0 <= k < |Patterns| && Occurs(Patterns[k], url);
      if k == 0 || k == 1 {
        assert fewer[0] == Patterns[0];
      } else {
        assert fewer[k - 1] == Patterns[k];
      }
    }
    if url != "" && SomeMatches(fewer, url) {
      var k :| 0 <= k < |fewer| && Occurs(fewer[k], url);
      if k == 0 {
        assert fewer[k] == Patterns[0];
      } else {
        assert fewer[k] == Patterns[k + 1];
      }
    }
  }
}

=== FILE: relay.dfy ===
/** The relay server's request handler: a decision from (method, URL, query) to
    a pre-flight reply, a 400, a 404, or a forward of the two parameters to the
    fixed upstream URL, whose status and body are passed back. */
module Relay {
  import opened JsValues
  import opened UpstreamUrl

  const ApiPathPrefix := "/api/"
  const MissingParamsBody := "{\"error\":\"Missing ak or link parameter\"}"
  const NotFoundBody := "{\"error\":\"Not found\"}"

  /** The three headers set on every response before anything else happens. */
  const CorsHeaders: map<string, string> := map[
    "Access-Control-Allow-Origin" := "*",
    "Access-Control-Allow-Methods" := "GET, POST, OPTIONS",
    "Access-Control-Allow-Headers" := "Content-Type, Accept, User-Agent"
  ]
  const JsonHeaders: map<string, string> := map["Content-Type" := "application/json"]
  const ForwardHeaders: map<string, string> := map[
    "Content-Type" := "application/json",
    "Access-Control-Allow-Origin" := "*"
  ]

  /** A value of `url.parse(req.url, true).query`: absent, one string, or the
      array of strings a repeated key gives. */
  datatype QueryParam = Absent | Single(value: string) | Repeated(values: seq<string>)

  /** `req.method`, `req.url`, and the query that `url.parse` reads from the URL. */
  datatype Request = Request(verb: string, url: string, query: map<string, QueryParam>)

  /** What the upstream GET gives: a reply with its status and body, or an
      `error` event with its message. */
  datatype Upstream = Status(code: int, body: string) | TransportError(message: string)

  /** The library encoders: `encodeURIComponent` and `JSON.stringify` of a string. */
  datatype Codec = Codec(uriComponent: string -> string, jsonString: string -> string)

  /** The first step of the handler: reply at once, or forward to a target URL. */
  datatype Decision = Reply(status: int, headers: map<string, string>, body: string) | Forward(target: string)

  /** Status, the headers as written, and the body that reaches the client. */
  datatype Response = Response(status: int, headers: map<string, string>, body: string)

  function Param(req: Request, key: string): QueryParam {
    if key in req.query then req.query[key] else Absent
  }

  /** `!param` is false exactly for a non-empty string or an array. */
  predicate Supplied(p: QueryParam) {
    match p
    case Absent => false
    case Single(s) => s != ""
    case Repeated(_) => true
  }

  function Join(parts: seq<string>): string {
    if |parts| == 0 then ""
    else if |parts| == 1 then parts[0]
    else parts[0] + "," + Join(parts[1..])
  }

  /** `String(param)`, as `encodeURIComponent` converts it: an array joins with ','. */
  function Text(p: QueryParam): string {
    match p
    case Absent => "undefined"
    case Single(s) => s
    case Repeated(vs) => Join(vs)
  }

  predicate StartsWith(s: string, prefix: string) {
    |prefix| <= |s| && s[..|prefix|] == prefix
  }

  predicate IsApiGet(req: Request) {
    req.verb == "GET" && StartsWith(req.url, ApiPathPrefix)
  }

  function TargetUrl(req: Request, codec: Codec): string {
    QueryUrl(codec.uriComponent(Text(Param(req, "ak"))), codec.uriComponent(Text(Param(req, "link"))))
  }

  /** The routing decision: pre-flight first, then the API route with its
      parameter check, and not-found for everything else. */
  function Route(req: Request, codec: Codec): (d: Decision)
    ensures d.Forward? <==> IsApiGet(req) && Supplied(Param(req, "ak")) && Supplied(Param(req, "link"))
    ensures d.Forward? ==> d.target == TargetUrl(req, codec)
    ensures d.Reply? ==> d.status in {200, 400, 404} && (d.status == 200 <==> req.verb == "OPTIONS")
  {
    if req.verb == "OPTIONS" then
      Reply(200, map[], "")
    else if IsApiGet(req) then
      if !Supplied(Param(req, "ak")) || !Supplied(Param(req, "link")) then
        Reply(400, JsonHeaders, MissingParamsBody)
      else
        Forward(TargetUrl(req, codec))
    else
      Reply(404, JsonHeaders, NotFoundBody)
  }

  function ErrorEnvelope(message: string, codec: Codec): string {
    "{\"error\":\"API request failed\",\"details\":" + codec.jsonString(message) + "}"
  }

  /** The upstream's reply passed through, or the 500 error envelope. */
  function Relayed(up: Upstream, codec: Codec): (d: Decision)
    ensures d.Reply? && "Content-Type" in d.headers && d.headers["Content-Type"] == "application/json"
    ensures up.Status? ==> d.status == up.code && d.body == up.body
    ensures up.TransportError? ==> d.status == 500 && d.body == ErrorEnvelope(up.message, codec)
  {
    match up
    case Status(code, body) => Reply(code, ForwardHeaders, body)
    case TransportError(message) => Reply(500, JsonHeaders, ErrorEnvelope(message, codec))
  }

  /** The whole handler: the CORS headers first, then what `writeHead` adds
      (its headers override those set before). Every response carries exactly
      the CORS headers and, unless it answers a pre-flight, a content type. */
  function Respond(req: Request, upstream: string -> Upstream, codec: Codec): (r: Response)
    ensures r.headers.Keys == CorsHeaders.Keys + (if req.verb == "OPTIONS" then {} else {"Content-Type"})
  {
    var d := Route(req, codec);
    var reply := if d.Forward? then Relayed(upstream(d.target), codec) else d;
    Response(reply.status, CorsHeaders + reply.headers, reply.body)
  }

  /** A pre-flight request gets 200 with an empty body and only the CORS
      headers, on any path and with any query. */
  lemma PreflightAnyPath(req: Request, upstream: string -> Upstream, codec: Codec)
    requires req.verb == "OPTIONS"
    ensures Respond(req, upstream, codec) == Response(200, CorsHeaders, "")
  {
  }

  /** An API GET with a missing or empty `ak` or `link` gets the 400 envelope,
      without any upstream request. */
  lemma MissingParameterIs400(req: Request, upstream: string -> Upstream, codec: Codec)
    requires IsApiGet(req)
    requires !Supplied(Param(req, "ak")) || !Supplied(Param(req, "link"))
    ensures !Route(req, codec).Forward?
    ensures Respond(req, upstream, codec).status == 400
    ensures Respond(req, upstream, codec).body == MissingParamsBody
  {
  }

  /** Anything that is neither a pre-flight nor a GET under `/api/` gets 404,
      for instance `POST /api/` or `GET /api` without the trailing slash. */
  lemma UnmatchedIs404(req: Request, upstream: string -> Upstream, codec: Codec)
    requires req.verb != "OPTIONS" && !IsApiGet(req)
    ensures Respond(req, upstream, codec).status == 404
    ensures Respond(req, upstream, codec).body == NotFoundBody
  {
  }

  /** The two examples named above: `POST /api/` and `GET /api` are not routes. */
  lemma NearMissesAreNotRoutes(query: map<string, QueryParam>)
    ensures !IsApiGet(Request("POST", "/api/", query))
    ensures !IsApiGet(Request("GET", "/api", query))
  {
  }

  /** A complete API GET is forwarded to the fixed upstream URL, from which the
      two encoded parameters read back unchanged, key first. */
  lemma ForwardTarget(req: Request, codec: Codec)
    requires IsApiGet(req) && Supplied(Param(req, "ak")) && Supplied(Param(req, "link"))
    requires '&' !in codec.uriComponent(Text(Param(req, "ak")))
    ensures Route(req, codec).Forward?
    ensures SplitQueryUrl(Route(req, codec).target) ==
      Some((codec.uriComponent(Text(Param(req, "ak"))), codec.uriComponent(Text(Param(req, "link")))))
  {
    SplitQueryUrlInverts(codec.uriComponent(Text(Param(req, "ak"))), codec.uriComponent(Text(Param(req, "link"))));
  }

  /** A forwarded request answers with the upstream status and body unchanged,
      labelled as JSON, or with 500 and the error envelope carrying the message. */
  lemma ForwardedReply(req: Request, upstream: string -> Upstream, codec: Codec)
    requires IsApiGet(req) && Supplied(Param(req, "ak")) && Supplied(Param(req, "link"))
    ensures var up := upstream(TargetUrl(req, codec));
      var resp := Respond(req, upstream, codec);
      && resp.headers["Content-Type"] == "application/json"
      && (up.Status? ==> resp.status == up.code && resp.body == up.body)
      && (up.TransportError? ==> resp.status == 500 && resp.body == ErrorEnvelope(up.message, codec))
  {
  }

  /** Every response, on every branch, carries the three CORS headers with their
      values; a response decided without the upstream has status 200, 400 or 404. */
  lemma CorsOnEveryResponse(req: Request, upstream: string -> Upstream, codec: Codec)
    ensures var resp := Respond(req, upstream, codec);
      forall h :: h in CorsHeaders ==> h in resp.headers && resp.headers[h] == CorsHeaders[h]
    ensures var resp := Respond(req, upstream, codec);
      Route(req, codec).Reply? ==> resp.status in {200, 400, 404}
  {
  }

  /** Node's `res`: headers set so far, the status line once written, and the
      body once the response has ended. */
  class ServerResponse {
    var headers: map<string, string>
    var status: int
    var headSent: bool
    var body: string
    var ended: bool

    constructor ()
      ensures headers == map[] && !headSent && !ended && body == ""
    {
      headers := map[];
      status := 200;
      headSent := false;
      body := "";
      ended := false;
    }

    method SetHeader(name: string, value: string)
      requires !headSent
      modifies this
      ensures headers == old(headers)[name := value] && status == old(status)
      ensures !headSent && ended == old(ended) && body == old(body)
    {
      headers := headers[name := value];
    }

    /** `writeHead(status, extra)`: the extra headers override those already set. */
    method WriteHead(code: int, extra: map<string, string>)
      requires !headSent && !ended
      modifies this
      ensures headSent && !ended && status == code && headers == old(headers) + extra
      ensures body == old(body)
    {
      status := code;
      headers := headers + extra;
      headSent := true;
    }

    /** `end(data)`, or the end of `apiRes.pipe(res)`. */
    method End(data: string)
      requires headSent && !ended
      modifies this
      ensures ended && body == data && headSent
      ensures status == old(status) && headers == old(headers)
    {
      body := data;
      ended := true;
    }
  }

  /** The handler carried out on `res`: three `setHeader` calls, then one
      `writeHead` and the body. For a forward, the upstream's reply or error
      event arrives later; it is taken here as the outcome of that request. */
  method Handle(req: Request, res: ServerResponse, upstream: string -> Upstream, codec: Codec)
    requires res.headers == map[] && !res.headSent && !res.ended
    modifies res
    ensures res.ended
    ensures Response(res.status, res.headers, res.body) == Respond(req, upstream, codec)
  {
    res.SetHeader("Access-Control-Allow-Origin", "*");
    res.SetHeader("Access-Control-Allow-Methods", "GET, POST, OPTIONS");
    res.SetHeader("Access-Control-Allow-Headers", "Content-Type, Accept, User-Agent");
    assert res.headers == CorsHeaders;

    if req.verb == "OPTIONS" {
      res.WriteHead(200, map[]);
      res.End("");
      return;
    }

    if req.verb == "GET" && StartsWith(req.url, ApiPathPrefix) {
      var ak, link := Param(req, "ak"), Param(req, "link");
      if !Supplied(ak) || !Supplied(link) {
        res.WriteHead(400, JsonHeaders);
        res.End(MissingParamsBody);
        return;
      }
      var target := QueryUrl(codec.uriComponent(Text(ak)), codec.uriComponent(Text(link)));
      match upstream(target) {
        case Status(code, body) =>
          res.WriteHead(code, ForwardHeaders);
          res.End(body);
        case TransportError(message) =>
          res.WriteHead(500, JsonHeaders);
          res.End(ErrorEnvelope(message, codec));
      }
    } else {
      res.WriteHead(404, JsonHeaders);
      res.End(NotFoundBody);
    }
  }
}

=== FILE: remover.dfy ===
/** The page controller `WatermarkRemover`, reduced to its two guards: the
    re-entrancy flag `isProcessing` around `processVideo`, and the one-shot flag
    `verifyCompleted` that lets the slider complete once per showing of the
    verification modal. */
module Remover {
  import opened JsValues
  import opened ResponseNormalizer
  import opened LinkValidator
  import opened Resolver

  const InvalidLinkMessage := "请输入有效的视频链接"
  const RetryMessage := "解析失败，请重试"
  const NetworkMessage := "网络错误，请检查网络连接后重试"

  /** What the result area shows: nothing yet, the loading state, `showResult`
      called with a value, or `showError` called with a message. */
  datatype View = Blank | Loading | ResultShown(data: JsValue) | ErrorShown(message: JsValue)

  /** The record `parseApiResponse` builds for a success, as a JavaScript object. */
  function MediaObject(m: Media): JsValue {
    Obj(map[
      "title" := m.title, "author" := m.author, "thumbnail" := m.thumbnail,
      "downloadUrl" := m.downloadUrl, "duration" := m.duration, "size" := m.size])
  }

  /** `showResult(data)` runs to its end: it reads `data.title`, so `data` is
      not null or undefined, and it calls `data.thumbnail.trim()` whenever the
      thumbnail is truthy, which only a string supports. */
  predicate Renders(data: JsValue) {
    !data.IsNullish() && (Truthy(Get(data, "thumbnail")) ==> Get(data, "thumbnail").Str?)
  }

  /** The `try` body of `processVideo` after `callAPI` settles: read
      `result.success` and call `showResult(result.data)` or `showError(result.message
      || '解析失败，请重试')`. A throw on the way (reading `success` of a null JSONP
      payload, or `showResult` itself failing) lands in the `catch`, which shows
      the network message, as it does when `callAPI` throws. A result is shown
      exactly when the outcome is a success whose data renders; an error message
      shown is never empty. */
  function Present(outcome: CallOutcome): (v: View)
    ensures v.ResultShown? || v.ErrorShown?
    ensures v.ResultShown? ==> Renders(v.data)
    ensures v.ErrorShown? ==> Truthy(v.message)
    ensures outcome.Parsed? && outcome.result.Success? ==>
      (v == ResultShown(MediaObject(outcome.result.data)) <==> Renders(MediaObject(outcome.result.data)))
    ensures outcome.RawJsonp? && !outcome.data.IsNullish() && Truthy(Get(outcome.data, "success")) ==>
      (v == ResultShown(Get(outcome.data, "data")) <==> Renders(Get(outcome.data, "data")))
    ensures v.ResultShown? ==> outcome.Parsed? || outcome.RawJsonp?
    ensures outcome.Parsed? && outcome.result.Failure? ==> v == ErrorShown(Or(outcome.result.message, Str(RetryMessage)))
    ensures outcome.Threw? || (outcome.RawJsonp? && outcome.data.IsNullish()) ==>
      v == ErrorShown(Str(NetworkMessage))
    ensures outcome.Parsed? && outcome.result.Success? && !Renders(MediaObject(outcome.result.data)) ==>
      v == ErrorShown(Str(NetworkMessage))
    ensures (outcome.RawJsonp? && !outcome.data.IsNullish() && Truthy(Get(outcome.data, "success")) &&
      !Renders(Get(outcome.data, "data"))) ==> v == ErrorShown(Str(NetworkMessage))
    ensures outcome.RawJsonp? && !outcome.data.IsNullish() && !Truthy(Get(outcome.data, "success")) ==>
      v == ErrorShown(Or(Get(outcome.data, "message"), Str(RetryMessage)))
  {
    match outcome
    case Parsed(Success(m)) => Show(MediaObject(m))
    case Parsed(Failure(msg)) => ErrorShown(Or(msg, Str(RetryMessage)))
    case RawJsonp(d) =>
      if d.IsNullish() then ErrorShown(Str(NetworkMessage))
      else if Truthy(Get(d, "success")) then Show(Get(d, "data"))
      else ErrorShown(Or(Get(d, "message"), Str(RetryMessage)))
    case Threw(_) => ErrorShown(Str(NetworkMessage))
  }

  /** `showResult(data)` inside the `try`: the result, or the network message
      once its own TypeError reaches the `catch`. */
  function Show(data: JsValue): View {
    if Renders(data) then ResultShown(data) else ErrorShown(Str(NetworkMessage))
  }

  /** A success that came through `parseApiResponse` is shown exactly when the
      upstream cover is falsy or a string (the thumbnail is then that string or
      ""); a truthy non-string cover makes `showResult` throw, and the page shows
      the network message instead of the result. */
  lemma ParsedSuccessShownIffCoverIsText(body: JsValue)
    requires ParseApiResponse(body).Returned? && ParseApiResponse(body).result.Success?
    ensures !Payload(body).IsNullish()
    ensures var m := ParseApiResponse(body).result.data;
      var cover := Get(Payload(body), "cover");
      && (Present(Parsed(ParseApiResponse(body).result)) == ResultShown(MediaObject(m)) <==>
          !Truthy(cover) || cover.Str?)
      && (Truthy(cover) && !cover.Str? ==>
          Present(Parsed(ParseApiResponse(body).result)) == ErrorShown(Str(NetworkMessage)))
  {
  }

  /** A failure that came through `parseApiResponse` is shown with its own
      message: the message is never falsy, so the retry text is never used for it. */
  lemma ParsedFailureShowsOwnMessage(body: JsValue)
    requires ParseApiResponse(body).Returned? && ParseApiResponse(body).result.Failure?
    ensures Present(Parsed(ParseApiResponse(body).result)) == ErrorShown(ParseApiResponse(body).result.message)
  {
  }

  class WatermarkRemover {
    var isProcessing: bool
    var verifyCompleted: bool
    var modalOpen: bool
    /** 800 ms timers started by `completeVerify` that have not fired yet. */
    var pendingVerifyTimers: nat
    var view: View
    /** Runs of `processVideo` that have passed the guard and not yet finished. */
    ghost var inFlight: nat
    /** Times `completeVerify` acted since the flag was last cleared. */
    ghost var completions: nat

    /** At most one `processVideo` is between its guard and its `finally`, and
        `completeVerify` has acted at most once since the last reset. */
    ghost predicate Valid()
      reads this
    {
      && inFlight == (if isProcessing then 1 else 0)
      && completions == (if verifyCompleted then 1 else 0)
    }

    constructor ()
      ensures Valid()
      ensures !isProcessing && !verifyCompleted && !modalOpen
      ensures pendingVerifyTimers == 0 && view == Blank
    {
      isProcessing := false;
      verifyCompleted := false;
      modalOpen := false;
      pendingVerifyTimers := 0;
      view := Blank;
      inFlight := 0;
      completions := 0;
    }

    /** `resetSlider`: the slider may complete again. */
    method ResetSlider()
      requires Valid()
      modifies this
      ensures Valid() && !verifyCompleted
      ensures isProcessing == old(isProcessing) && modalOpen == old(modalOpen)
      ensures pendingVerifyTimers == old(pendingVerifyTimers) && view == old(view)
    {
      verifyCompleted := false;
      completions := 0;
    }

    /** `closeVerifyModal`: hide the modal and clear the one-shot flag. */
    method CloseVerifyModal()
      requires Valid()
      modifies this
      ensures Valid() && !verifyCompleted && !modalOpen
      ensures isProcessing == old(isProcessing)
      ensures pendingVerifyTimers == old(pendingVerifyTimers) && view == old(view)
    {
      modalOpen := false;
      verifyCompleted := false;
      completions := 0;
    }

    /** `handleRemoveClick` with the trimmed input: ignored while processing; an
        invalid link shows an error; a valid one opens the modal with the slider
        reset. */
    method HandleRemoveClick(input: string)
      requires Valid()
      modifies this
      ensures Valid()
      ensures isProcessing == old(isProcessing) && pendingVerifyTimers == old(pendingVerifyTimers)
      ensures old(isProcessing) ==>
        verifyCompleted == old(verifyCompleted) && modalOpen == old(modalOpen) && view == old(view)
      ensures !old(isProcessing) && !IsValidUrl(input) ==>
        view == ErrorShown(Str(InvalidLinkMessage)) && modalOpen == old(modalOpen) &&
        verifyCompleted == old(verifyCompleted)
      ensures !old(isProcessing) && IsValidUrl(input) ==>
        modalOpen && !verifyCompleted && view == old(view)
    {
      if isProcessing {
        return;
      }
      if !IsValidUrl(input) {
        view := ErrorShown(Str(InvalidLinkMessage));
        return;
      }
      modalOpen := true;
      ResetSlider();
    }

    /** `completeVerify`: acts only when the flag is clear, then sets it and
        starts the 800 ms timer that closes the modal and processes the video. */
    method CompleteVerify() returns (acted: bool)
      requires Valid()
      modifies this
      ensures Valid() && verifyCompleted
      ensures acted == !old(verifyCompleted)
      ensures pendingVerifyTimers == old(pendingVerifyTimers) + (if acted then 1 else 0)
      ensures isProcessing == old(isProcessing) && modalOpen == old(modalOpen) && view == old(view)
    {
      if verifyCompleted {
        return false;
      }
      verifyCompleted := true;
      completions := completions + 1;
      pendingVerifyTimers := pendingVerifyTimers + 1;
      acted := true;
    }

    /** The first half of `processVideo`, up to the `await`: a no-op while a run
        is in flight, otherwise set the flag and show the loading state. */
    method StartProcessing() returns (started: bool)
      requires Valid()
      modifies this
      ensures Valid() && isProcessing
      ensures started == !old(isProcessing)
      ensures inFlight == 1
      ensures view == if started then Loading else old(view)
      ensures verifyCompleted == old(verifyCompleted) && modalOpen == old(modalOpen)
      ensures pendingVerifyTimers == old(pendingVerifyTimers)
    {
      if isProcessing {
        return false;
      }
      isProcessing := true;
      inFlight := inFlight + 1;
      view := Loading;
      started := true;
    }

    /** The second half of `processVideo`, once `callAPI` has settled: show the
        outcome, and clear the flag in `finally` whatever the outcome was. */
    method FinishProcessing(outcome: CallOutcome)
      requires Valid() && isProcessing
      modifies this
      ensures Valid() && !isProcessing && inFlight == 0
      ensures view == Present(outcome)
      ensures verifyCompleted == old(verifyCompleted) && modalOpen == old(modalOpen)
      ensures pendingVerifyTimers == old(pendingVerifyTimers)
    {
      view := Present(outcome);
      isProcessing := false;
      inFlight := inFlight - 1;
    }

    /** `processVideo` run with no other event between its halves: when it passes
        the guard, it calls `callAPI` on the input and ends with the flag clear. */
    method ProcessVideo(input: string, b: Browser) returns (started: bool)
      requires Valid()
      modifies this
      ensures Valid()
      ensures started == !old(isProcessing)
      ensures started ==> !isProcessing && view == Present(Resolve(input, b))
      ensures !started ==> isProcessing && view == old(view)
      ensures verifyCompleted == old(verifyCompleted) && modalOpen == old(modalOpen)
      ensures pendingVerifyTimers == old(pendingVerifyTimers)
    {
      started := StartProcessing();
      if started {
        var outcome, _ := CallApi(input, b);
        FinishProcessing(outcome);
      }
    }

    /** The 800 ms timer of `completeVerify` fires: close the modal, then start
        `processVideo` (its first half; the rest runs when `callAPI` settles). */
    method OnVerifyTimer() returns (started: bool)
      requires Valid() && pendingVerifyTimers > 0
      modifies this
      ensures Valid() && !modalOpen && !verifyCompleted && isProcessing
      ensures pendingVerifyTimers == old(pendingVerifyTimers) - 1
      ensures started == !old(isProcessing)
      ensures view == if started then Loading else old(view)
    {
      pendingVerifyTimers := pendingVerifyTimers - 1;
      CloseVerifyModal();
      started := StartProcessing();
    }
  }

  /** Sliding to the end twice in one showing of the modal schedules one run,
      and a second run cannot start while the first is in flight. */
  method DoubleCompletion() returns (firstActed: bool, secondActed: bool, secondStarted: bool)
    ensures firstActed && !secondActed && !secondStarted
  {
    var page := new WatermarkRemover();
    page.HandleRemoveClick("https://v.douyin.com/x");
    firstActed := page.CompleteVerify();
    secondActed := page.CompleteVerify();
    var started := page.OnVerifyTimer();
    secondStarted := page.StartProcessing();
  }
}

=== FILE: resolver.dfy ===
/** `callAPI`: the ordered fallback chain. It tries a direct call, then three CORS
    relay prefixes in list order, then JSONP, and throws when all of them fail.
    The first transport that returns an `ok` response with a JSON body that
    `parseApiResponse` accepts decides the outcome, even when that outcome is a
    failure; a blocked call, a non-ok status, a body that is not JSON, or a parse
    that throws moves the chain on. */
module Resolver {
  import opened JsValues
  import opened ResponseNormalizer
  import opened UpstreamUrl
  import opened Jsonp

  const AccessKey := "31f90c09b9ab4d0daa8a6a957f12a021"
  const ProxyPrefixes: seq<string> := [
    "https://api.allorigins.win/raw?url=",
    "https://cors-anywhere.herokuapp.com/",
    "https://api.codetabs.com/v1/proxy?quest="
  ]
  const AllFailedMessage := "所有API调用方法都失败了，可能是网络问题或CORS限制"

  /** What one `fetch` gives: the call throws (a CORS block or a network error),
      the response is not ok, or it is ok with a body that parses as JSON or not. */
  datatype Attempt = Blocked | NotOk | OkJson(json: JsValue) | OkUnparsable

  /** The browser around the page: the two library encoders, the outcome of a
      fetch of each URL, the fate of a script with each source, and the clock
      digits that name the JSONP callback. */
  datatype Browser = Browser(
    formComponent: string -> string,
    uriComponent: string -> string,
    fetch: string -> Attempt,
    script: string -> ScriptFate,
    clock: string)

  /** What `callAPI` settles with: a normalised result, the JSONP payload
      returned as it came, or the final thrown error. */
  datatype CallOutcome = Parsed(result: ApiResult) | RawJsonp(data: JsValue) | Threw(message: string)

  /** `${apiUrl}?${new URLSearchParams({ ak, link })}`. */
  function TargetUrl(link: string, b: Browser): string {
    QueryUrl(b.formComponent(AccessKey), b.formComponent(link))
  }

  /** The fetch URLs in the order they are tried: direct, then each relay prefix
      followed by the encoded target URL. */
  function TransportUrls(link: string, b: Browser): (urls: seq<string>)
    ensures |urls| == 1 + |ProxyPrefixes|
    ensures urls[0] == TargetUrl(link, b)
    ensures forall i :: 0 <= i < |ProxyPrefixes| ==>
      urls[i + 1] == ProxyPrefixes[i] + b.uriComponent(TargetUrl(link, b))
  {
    var target := TargetUrl(link, b);
    [target] + seq(|ProxyPrefixes|, i requires 0 <= i < |ProxyPrefixes| => ProxyPrefixes[i] + b.uriComponent(target))
  }

  /** The JSONP script source for this link. */
  function ScriptSrc(link: string, b: Browser): string {
    JsonpSrc(TargetUrl(link, b), CallbackName(b.clock))
  }

  /** What one fetch transport contributes: the parse result when it answers,
      `None` when the chain moves on. */
  function Answer(a: Attempt): (r: Option<ApiResult>)
    ensures r.Some? <==> a.OkJson? && !a.json.IsNullish()
  {
    match a
    case OkJson(v) =>
      (match ParseApiResponse(v)
       case Returned(r) => Some(r)
       case TypeError => None)
    case _ => None
  }

  /** What a transport answers with is the normalised response body. */
  lemma AnswerIsParse(a: Attempt)
    ensures Answer(a).Some? ==> a.OkJson? && ParseApiResponse(a.json) == Returned(Answer(a).value)
  {
  }

  /** The chain over the fetch URLs, short-circuiting on the first answer: the
      outcome is a parsed answer or the fallback (FirstAnswerIsFirst says which). */
  function FirstAnswer(urls: seq<string>, fetch: string -> Attempt, fallback: CallOutcome): (r: CallOutcome)
    ensures r == fallback || r.Parsed?
  {
    if urls == [] then
      fallback
    else
      match Answer(fetch(urls[0]))
      case Some(a) => Parsed(a)
      case None => FirstAnswer(urls[1..], fetch, fallback)
  }

  /** The last step: the JSONP data as it came, or the final error. */
  function JsonpStep(fate: ScriptFate): CallOutcome {
    if fate.Calls? then RawJsonp(fate.data) else Threw(AllFailedMessage)
  }

  /** The whole of `callAPI(link)`: a normalised answer, the data the JSONP
      script called back with, or the fixed error. */
  function Resolve(link: string, b: Browser): (r: CallOutcome)
    ensures r.RawJsonp? ==> b.script(ScriptSrc(link, b)) == Calls(r.data)
    ensures r.Threw? ==> r.message == AllFailedMessage
  {
    FirstAnswer(TransportUrls(link, b), b.fetch, JsonpStep(b.script(ScriptSrc(link, b))))
  }

  /** The chain's outcome is the answer of the first transport that answers, and
      the fallback exactly when none does. */
  lemma {:induction false} FirstAnswerIsFirst(urls: seq<string>, fetch: string -> Attempt, fallback: CallOutcome)
    requires !fallback.Parsed?
    ensures FirstAnswer(urls, fetch, fallback) == fallback <==>
      forall k :: 0 <= k < |urls| ==> Answer(fetch(urls[k])).None?
    ensures forall k :: 0 <= k < |urls| && Answer(fetch(urls[k])).Some? &&
                        (forall j :: 0 <= j < k ==> Answer(fetch(urls[j])).None?) ==>
      FirstAnswer(urls, fetch, fallback) == Parsed(Answer(fetch(urls[k])).value)
  {
    if urls != [] {
      FirstAnswerIsFirst(urls[1..], fetch, fallback);
      assert forall k :: 1 <= k < |urls| ==> urls[1..][k - 1] == urls[k];
      if Answer(fetch(urls[0])).None? {
        forall k | 0 <= k < |urls| && Answer(fetch(urls[k])).Some? &&
                   (forall j :: 0 <= j < k ==> Answer(fetch(urls[j])).None?)
          ensures FirstAnswer(urls, fetch, fallback) == Parsed(Answer(fetch(urls[k])).value)
        {
          assert k != 0;
          assert forall j :: 0 <= j < k - 1 ==> urls[1..][j] == urls[j + 1];
        }
      }
    }
  }

  /** Once a transport answers, no later fetch and not the fallback can change
      the outcome: two browsers that agree up to and including the answering
      transport resolve alike. */
  lemma {:induction false} LaterTransportsIrrelevant(urls: seq<string>, f: string -> Attempt, g: string -> Attempt,
                                                     k: nat, fb: CallOutcome, gb: CallOutcome)
    requires k < |urls|
    requires forall j :: 0 <= j <= k ==> f(urls[j]) == g(urls[j])
    requires Answer(f(urls[k])).Some?
    ensures FirstAnswer(urls, f, fb) == FirstAnswer(urls, g, gb)
  {
    assert f(urls[0]) == g(urls[0]);
    if k > 0 && Answer(f(urls[0])).None? {
      assert forall j :: 0 <= j <= k - 1 ==> urls[1..][j] == urls[j + 1];
      LaterTransportsIrrelevant(urls[1..], f, g, k - 1, fb, gb);
    }
  }

  /** A blocked direct call followed by a first relay whose `ok` body the
      normaliser reports as a failure: that failure is the outcome (and, by
      LaterTransportsIrrelevant, the other relays and JSONP play no part). */
  lemma SemanticFailureStopsChain(link: string, b: Browser, body: JsValue)
    requires b.fetch(TransportUrls(link, b)[0]) == Blocked
    requires b.fetch(TransportUrls(link, b)[1]) == OkJson(body)
    requires ParseApiResponse(body).Returned? && ParseApiResponse(body).result.Failure?
    ensures Resolve(link, b) == Parsed(ParseApiResponse(body).result)
  {
    var urls := TransportUrls(link, b);
    var fallback := JsonpStep(b.script(ScriptSrc(link, b)));
    assert Answer(b.fetch(urls[0])).None?;
    assert Answer(b.fetch(urls[1])) == Some(ParseApiResponse(body).result);
    assert FirstAnswer(urls, b.fetch, fallback) == FirstAnswer(urls[1..], b.fetch, fallback);
    assert urls[1..][0] == urls[1];
  }

  /** When every fetch transport fails, JSONP decides: its data is returned
      without normalisation, and otherwise `callAPI` throws. */
  lemma JsonpIsLastResort(link: string, b: Browser)
    requires forall k :: 0 <= k < 1 + |ProxyPrefixes| ==> Answer(b.fetch(TransportUrls(link, b)[k])).None?
    ensures b.script(ScriptSrc(link, b)).Calls? ==> Resolve(link, b) == RawJsonp(b.script(ScriptSrc(link, b)).data)
    ensures !b.script(ScriptSrc(link, b)).Calls? ==> Resolve(link, b) == Threw(AllFailedMessage)
  {
    FirstAnswerIsFirst(TransportUrls(link, b), b.fetch, JsonpStep(b.script(ScriptSrc(link, b))));
  }

  /** The JSONP request goes to the target URL with `&callback=<name>` appended,
      since the target URL already has a query. The appended text is written as
      `"&" + "callback="`, the shape `JsonpSrc` builds it in, which keeps the
      proof cheap; the two literals together are `"&callback="`. */
  lemma ScriptSrcAppendsCallback(link: string, b: Browser)
    ensures ScriptSrc(link, b) == TargetUrl(link, b) + "&" + "callback=" + CallbackName(b.clock)
  {
  }

  /** Appending the next planned URL keeps `tried` a prefix of the plan, and
      one more URL known to have moved the chain on keeps that fact for all. */
  lemma ExtendTried(tried: seq<string>, urls: seq<string>, fetch: string -> Attempt)
    requires |tried| < |urls|
    requires forall j :: 0 <= j < |tried| ==> tried[j] == urls[j]
    requires forall j :: 0 <= j < |tried| ==> Answer(fetch(urls[j])).None?
    ensures forall j :: 0 <= j < |tried| + 1 ==> (tried + [urls[|tried|]])[j] == urls[j]
    ensures forall j :: 0 <= j < |tried| ==> Answer(fetch(urls[j])).None?
  {
  }

  /** The fetch part of `callAPI(link)`: the direct call, then the relays in
      list order, stopping at the first transport that answers. The URLs it
      tried are a prefix of the planned list in which every URL but the last
      moved the chain on; the last one's answer is the one returned, and the
      whole list was tried when nothing answered. */
  method FetchInOrder(link: string, b: Browser) returns (answer: Option<ApiResult>, tried: seq<string>)
    ensures 0 < |tried| <= |TransportUrls(link, b)|
    ensures forall j :: 0 <= j < |tried| ==> tried[j] == TransportUrls(link, b)[j]
    ensures forall j :: 0 <= j < |tried| - 1 ==> Answer(b.fetch(tried[j])).None?
    ensures answer == Answer(b.fetch(tried[|tried| - 1]))
    ensures answer.None? ==> |tried| == |TransportUrls(link, b)|
  {
    ghost var urls := TransportUrls(link, b);
    var target := TargetUrl(link, b);

    // The direct call.
    tried := [target];
    answer := Answer(b.fetch(target));

    // The relays, in list order, until one answers.
    var i := 0;
    while answer.None? && i < |ProxyPrefixes|
      invariant 0 <= i <= |ProxyPrefixes|
      invariant |tried| == i + 1 && forall j :: 0 <= j < |tried| ==> tried[j] == urls[j]
      invariant forall j :: 0 <= j < i ==> Answer(b.fetch(urls[j])).None?
      invariant answer == Answer(b.fetch(urls[i]))
    {
      var url := ProxyPrefixes[i] + b.uriComponent(target);
      assert url == urls[i + 1];
      ExtendTried(tried, urls, b.fetch);
      tried := tried + [url];
      answer := Answer(b.fetch(url));
      i := i + 1;
    }
  }

  /** `callAPI(link)`: returns what `Resolve` describes, together with the fetch
      URLs it tried, in order: a prefix of the planned list in which every URL
      but an answering last one moved the chain on, and the whole list whenever
      no fetch answered. */
  method CallApi(link: string, b: Browser) returns (r: CallOutcome, tried: seq<string>)
    ensures r == Resolve(link, b)
    ensures 0 < |tried| <= |TransportUrls(link, b)|
    ensures forall j :: 0 <= j < |tried| ==> tried[j] == TransportUrls(link, b)[j]
    ensures forall j :: 0 <= j < |tried| - 1 ==> Answer(b.fetch(tried[j])).None?
    ensures r.Parsed? <==> Answer(b.fetch(tried[|tried| - 1])).Some?
    ensures r.Parsed? ==> r == Parsed(Answer(b.fetch(tried[|tried| - 1])).value)
    ensures !r.Parsed? ==> |tried| == |TransportUrls(link, b)|
  {
    ghost var urls := TransportUrls(link, b);
    var answer;
    answer, tried := FetchInOrder(link, b);
    FirstAnswerIsFirst(urls, b.fetch, JsonpStep(b.script(ScriptSrc(link, b))));
    if answer.Some? {
      assert forall j :: 0 <= j < |tried| - 1 ==> Answer(b.fetch(urls[j])).None?;
      return Parsed(answer.value), tried;
    }

    // JSONP, and the final error.
    var settled, _ := Settle(TargetUrl(link, b), CallbackName(b.clock), b.script(ScriptSrc(link, b)));
    if settled.Resolved? {
      r := RawJsonp(settled.value);
    } else {
      r := Threw(AllFailedMessage);
    }
  }
}

=== FILE: response_normalizer.dfy ===
/** The response normaliser `parseApiResponse`: it sorts an untyped upstream JSON
    value into a success built from `content` (code "10000"), a success built
    from `data` (code 200), or a failure carrying a message. */
module ResponseNormalizer {
  import opened JsValues

  const SuccessCodeA: JsValue := Str("10000")
  const SuccessCodeB: JsValue := Num(200.0)
  const UnknownTitle := "未知标题"
  const UnknownAuthor := "未知作者"
  const ParseFailed := "解析失败"

  /** The `data` record of a success. Each field holds whatever JavaScript value
      the expression in the source yields, so a non-string upstream field that is
      truthy passes through, and the 200 shape can leave `downloadUrl` undefined. */
  datatype Media = Media(
    title: JsValue,
    author: JsValue,
    thumbnail: JsValue,
    downloadUrl: JsValue,
    duration: JsValue,
    size: JsValue)

  /** `{ success: true, data }` or `{ success: false, message }`: exactly one of the
      two payloads, by construction. */
  datatype ApiResult = Success(data: Media) | Failure(message: JsValue)

  /** What a call of `parseApiResponse` does: returns a result, or throws a
      TypeError because it read `code` of null. */
  datatype Parsed = Returned(result: ApiResult) | TypeError

  /** The "10000" shape: every field falls back to a default, `downloadUrl` to "". */
  function FromContent(c: JsValue): Media
    requires !c.IsNullish()
  {
    Media(
      Or(Get(c, "title"), Str(UnknownTitle)),
      Or(Get(c, "author"), Str(UnknownAuthor)),
      Or(Get(c, "cover"), Str("")),
      Or(Get(c, "url"), Str("")),
      Or(Get(c, "duration"), Str("")),
      Or(Get(c, "size"), Str("")))
  }

  /** The 200 shape: `downloadUrl` is `url || videoUrl`, with no further default. */
  function FromData(d: JsValue): Media
    requires !d.IsNullish()
  {
    Media(
      Or(Get(d, "title"), Str(UnknownTitle)),
      Or(Get(d, "author"), Str(UnknownAuthor)),
      Or(Get(d, "cover"), Str("")),
      Or(Get(d, "url"), Get(d, "videoUrl")),
      Or(Get(d, "duration"), Str("")),
      Or(Get(d, "size"), Str("")))
  }

  /** `parseApiResponse(data)`. It throws exactly when `data` is null or
      undefined; otherwise it succeeds exactly when the code matches one of the
      two sentinels under strict equality and the matching payload is truthy,
      and a failure always carries a truthy message. */
  function ParseApiResponse(data: JsValue): (p: Parsed)
    ensures p.TypeError? <==> data.IsNullish()
    ensures p.Returned? ==>
      (p.result.Success? <==>
         (Get(data, "code") == Str("10000") && Truthy(Get(data, "content"))) ||
         (Get(data, "code") == Num(200.0) && Truthy(Get(data, "data"))))
    ensures p.Returned? && p.result.Failure? ==> Truthy(p.result.message)
  {
    if data.IsNullish() then
      TypeError
    else if Get(data, "code") == SuccessCodeA && Truthy(Get(data, "content")) then
      Returned(Success(FromContent(Get(data, "content"))))
    else if Get(data, "code") == SuccessCodeB && Truthy(Get(data, "data")) then
      Returned(Success(FromData(Get(data, "data"))))
    else
      Returned(Failure(Or(Get(data, "msg"), Or(Get(data, "message"), Str(ParseFailed)))))
  }

  /** A field that the source fills with `x || fallback`: the upstream value when
      truthy, the fallback otherwise. */
  ghost predicate KeptOrDefault(src: JsValue, key: string, field: JsValue, fallback: JsValue)
    requires !src.IsNullish()
  {
    if Truthy(Get(src, key)) then field == Get(src, key) else field == fallback
  }

  /** The payload object a success was built from. */
  function Payload(data: JsValue): JsValue
    requires !data.IsNullish()
  {
    if Get(data, "code") == SuccessCodeA then Get(data, "content") else Get(data, "data")
  }

  /** In either success shape, title and author are always truthy (the upstream
      value or a placeholder), and thumbnail, duration and size are truthy or
      exactly the empty string; each keeps the upstream value when it is truthy. */
  lemma SuccessDefaults(data: JsValue)
    requires ParseApiResponse(data).Returned? && ParseApiResponse(data).result.Success?
    ensures var m := ParseApiResponse(data).result.data;
      && Truthy(m.title) && Truthy(m.author)
      && (Truthy(m.thumbnail) || m.thumbnail == Str(""))
      && (Truthy(m.duration) || m.duration == Str(""))
      && (Truthy(m.size) || m.size == Str(""))
      && !Payload(data).IsNullish()
      && KeptOrDefault(Payload(data), "title", m.title, Str(UnknownTitle))
      && KeptOrDefault(Payload(data), "author", m.author, Str(UnknownAuthor))
      && KeptOrDefault(Payload(data), "cover", m.thumbnail, Str(""))
      && KeptOrDefault(Payload(data), "duration", m.duration, Str(""))
      && KeptOrDefault(Payload(data), "size", m.size, Str(""))
  {
  }

  /** The "10000" shape never leaves the download URL falsy other than "": a
      missing `content.url` still gives a success, with `downloadUrl` "". */
  lemma ContentShapeDownloadUrl(data: JsValue)
    requires !data.IsNullish()
    requires Get(data, "code") == Str("10000") && Truthy(Get(data, "content"))
    ensures ParseApiResponse(data).Returned? && ParseApiResponse(data).result.Success?
    ensures KeptOrDefault(Get(data, "content"), "url", ParseApiResponse(data).result.data.downloadUrl, Str(""))
  {
  }

  /** The 200 shape takes `url` when truthy and `videoUrl` otherwise, whatever
      `videoUrl` is, undefined included. */
  lemma DataShapeDownloadUrl(data: JsValue)
    requires !data.IsNullish()
    requires Get(data, "code") == Num(200.0) && Truthy(Get(data, "data"))
    ensures ParseApiResponse(data).Returned? && ParseApiResponse(data).result.Success?
    ensures KeptOrDefault(Get(data, "data"), "url",
                          ParseApiResponse(data).result.data.downloadUrl, Get(Get(data, "data"), "videoUrl"))
  {
  }

  /** A 200 body whose `data` has neither `url` nor `videoUrl` is still a
      success, and its download URL is undefined. */
  lemma DataShapeWithoutUrl(data: JsValue)
    requires !data.IsNullish()
    requires Get(data, "code") == Num(200.0) && Truthy(Get(data, "data"))
    requires Get(Get(data, "data"), "url") == Undefined && Get(Get(data, "data"), "videoUrl") == Undefined
    ensures ParseApiResponse(data).Returned? && ParseApiResponse(data).result.Success?
    ensures ParseApiResponse(data).result.data.downloadUrl == Undefined
  {
  }

  /** A failure's message is `msg || message || '解析失败'`. */
  lemma FailureMessage(data: JsValue)
    requires ParseApiResponse(data).Returned? && ParseApiResponse(data).result.Failure?
    ensures !data.IsNullish()
    ensures Truthy(Get(data, "msg")) ==> ParseApiResponse(data).result.message == Get(data, "msg")
    ensures !Truthy(Get(data, "msg")) ==>
      KeptOrDefault(data, "message", ParseApiResponse(data).result.message, Str(ParseFailed))
  {
  }

  /** Equality is strict: the string "200" and the number 10000 are not success
      codes, whatever else the body holds. */
  lemma StrictCodes(data: JsValue)
    requires !data.IsNullish()
    requires Get(data, "code") == Str("200") || Get(data, "code") == Num(10000.0)
    ensures ParseApiResponse(data).Returned? && ParseApiResponse(data).result.Failure?
  {
  }
}

=== FILE: upstream_url.dfy ===
/** The upstream request URL, shared by the page and the relay: the fixed API
    endpoint followed by `?ak=<key>&link=<link>`, both values already encoded.
    The page encodes them with `URLSearchParams`, the relay with
    `encodeURIComponent`; both encoders are left abstract, and each escapes '&'. */
module UpstreamUrl {
  import opened JsValues

  const ApiUrl := "https://api.guijianpan.com/waterRemoveDetail/xxmQsyByAk"
  const AkPrefix := "?ak="
  const LinkSeparator := "&link="

  /** The endpoint, then the query: its '?' comes right after the endpoint,
      so the URL always carries a query. */
  function QueryUrl(ak: string, link: string): (u: string)
    ensures |u| == |ApiUrl| + |AkPrefix| + |ak| + |LinkSeparator| + |link|
    ensures u[..|ApiUrl|] == ApiUrl && u[|ApiUrl|] == '?'
  {
    ApiUrl + AkPrefix + ak + LinkSeparator + link
  }

  /** The position of the first `c` in `s`, or `|s|` when there is none. */
  function IndexOf(s: string, c: char): (i: nat)
    ensures i <= |s|
    ensures i < |s| ==> s[i] == c
    ensures forall j :: 0 <= j < i ==> s[j] != c
  {
    if s == [] then 0
    else if s[0] == c then 0
    else 1 + IndexOf(s[1..], c)
  }

  /** Reads the two encoded values back out of an upstream URL: the key runs up
      to the first '&', which must open `&link=`. */
  function SplitQueryUrl(u: string): Option<(string, string)> {
    var head := ApiUrl + AkPrefix;
    if |u| < |head| || u[..|head|] != head then
      None
    else
      var rest := u[|head|..];
      var i := IndexOf(rest, '&');
      if i + |LinkSeparator| <= |rest| && rest[i..i + |LinkSeparator|] == LinkSeparator then
        Some((rest[..i], rest[i + |LinkSeparator|..]))
      else
        None
  }

  /** The URL carries the key and the link unambiguously whenever the encoded key
      holds no '&'. */
  lemma SplitQueryUrlInverts(ak: string, link: string)
    requires '&' !in ak
    ensures SplitQueryUrl(QueryUrl(ak, link)) == Some((ak, link))
  {
    var head := ApiUrl + AkPrefix;
    var u := QueryUrl(ak, link);
    assert u == head + (ak + LinkSeparator + link);
    assert u[..|head|] == head;
    var rest := u[|head|..];
    assert rest == ak + LinkSeparator + link;
    var i := IndexOf(rest, '&');
    assert rest[|ak|] == '&';
    assert i == |ak|;
    assert rest[i..i + |LinkSeparator|] == LinkSeparator;
    assert rest[..i] == ak;
    assert rest[i + |LinkSeparator|..] == link;
  }
}
